=== FILE: README.md ===
# StockSense inventory dashboard — a Dafny model of its core

StockSense is a single-page React inventory dashboard. Its core is two components:

- `MainFeature` holds the item table and the stock-transaction dialog. It validates an add or
  remove request against the selected item, applies it to every item with that id, and
  recomputes each status from the low-stock threshold.
- `AddItemModal` is the dialog for a new item. It coerces the quantity input, clears a field's
  error when that field is edited, generates a SKU from the category and the name, validates,
  resets, and refuses to close while a submit is in flight.

The model is in seven modules, all pure functions on immutable datatypes:

| file | module | what it holds |
|---|---|---|
| `wrappers.dfy` | `Wrappers` | `Option` |
| `js_text.dfy` | `JsText` | JavaScript's `trim`, ASCII `toUpperCase`, `substring(0, n)`, `split`/`join`, and the word initials used by the SKU generator |
| `js_number.dfy` | `JsNumber` | `parseInt` without a radix (section 19.2.5 of ECMA-262, with `NaN` as `None`), `parseInt(s) \|\| 0`, `Number.prototype.toString` on integers below 10^21, `padStart` |
| `forms.dfy` | `Forms` | the field names and the field-to-message error maps both dialogs keep |
| `inventory.dfy` | `Inventory` | items, the status rule, the badge mapping, the seed data, the item-list update of a transaction |
| `transaction_modal.dfy` | `TransactionModal` | the transaction dialog's validation, its state transitions and its submit; a dashboard event loop and its invariant |
| `add_item_modal.dfy` | `AddItemModal` | the add-item dialog: validation, `handleChange`, `generateSKU`, `resetForm`, `handleClose`, the submit and its two timers; an event loop |

Conventions:

- A `Date` is its time value in milliseconds since the epoch (`Inventory.Timestamp`). The clock
  (`new Date()`) is a parameter of the submit.
- `Math.random()` enters only through `Math.floor(Math.random() * 1000)`. That value is a
  parameter `randomNumber < 1000`.
- Timers are events. In the transaction dialog the 1000 ms latency of a submit is collapsed into
  the submit step. In the add-item dialog the two timers are separate events (`DeliverTimer`,
  `FinishTimer`), because the close guard only matters while the first one is pending.
- `onAddItem` and `onClose` are the parent's callbacks. The forms passed to `onAddItem` are the
  output of `AddItemModal.Run`. `onClose` clears the `open` flag.

Behaviours of the code worth stating:

- A transaction whose item id is absent leaves the list unchanged, because the code maps over
  the list. It is not an error (`Inventory.ApplyAbsentIdIsIdentity`).
- Every item carrying the target id is updated, not just one.
- The new-item validation checks only that category and location are non-empty, not that they
  belong to the offered lists.
- A new item carries no derived status: the form is handed over as it stands.

## Model

| member | source | states |
|---|---|---|
| Forms.ClearError | src/components/AddItemModal.jsx:44-49 | clearing a field's error removes exactly that entry and keeps every other entry and message |
| Forms.NoErrors | src/components/MainFeature.jsx:125 | no contract of its own: `Forms.NoErrorsIffNoField` says `Object.keys(errors).length === 0` holds exactly when no field has an error |
| Forms.NoErrorsIffNoField | src/components/MainFeature.jsx:124-125 | "no keys in the error object" holds exactly when no field has an error |
| JsText.TrimStart | src/components/AddItemModal.jsx:80 | the result is a suffix, everything dropped is ECMAScript whitespace, and it does not start with whitespace |
| JsText.TrimEnd | src/components/AddItemModal.jsx:80 | the result is a prefix, everything dropped is whitespace, and it does not end with whitespace |
| JsText.TrimEmptyIffBlank | src/components/AddItemModal.jsx:80-86 | `!s.trim()` holds exactly for strings made only of whitespace, both directions |
| JsText.Trim | src/components/AddItemModal.jsx:80 | `trim` gives a slice no longer than the string that neither starts nor ends with whitespace; `JsText.TrimEmptyIffBlank` says when it is empty |
| JsText.TrimsToEmpty | src/components/AddItemModal.jsx:80 | the `!s.trim()` test agrees with the blank-string predicate |
| JsText.UpperAll | src/components/AddItemModal.jsx:58 | upper-casing keeps the length and maps each ASCII lower-case letter to its capital, leaving other characters |
| JsText.Prefix | src/components/AddItemModal.jsx:58 | `substring(0, n)` has length min(n, length) and is a prefix of the string |
| JsText.Split | src/components/AddItemModal.jsx:60 | splitting gives at least one piece and no piece contains the separator |
| JsText.JoinSplit | src/components/AddItemModal.jsx:59-62 | joining the pieces of a split on the same separator gives the original string back |
| JsText.Initials | src/components/AddItemModal.jsx:61-62 | no contract of its own: `JsText.InitialsAreWordStarts` gives the initials of a split by a reference definition, and `JsText.InitialsAppend` says they distribute over concatenation |
| JsText.InitialsAreWordStarts | src/components/AddItemModal.jsx:59-62 | the upper-cased first characters of the space-separated words are the upper-cased characters that start a word (non-space, first or after a space) |
| JsNumber.LeadingDigits | src/components/AddItemModal.jsx:35 | the digit run `parseInt` reads is a prefix of only digits, and the character after it is not a digit |
| JsNumber.NatToDecimal | src/components/AddItemModal.jsx:64-65 | `toString` of a natural number is non-empty, all digits, and has no leading zero unless it is "0" |
| JsNumber.PadStart | src/components/AddItemModal.jsx:66 | `padStart` keeps the string as its suffix, fills the front with the fill character, and reaches the target width |
| JsNumber.DecimalValue | src/components/AddItemModal.jsx:64-65 | reading the decimal numeral of n gives back n |
| JsNumber.DecimalLength | src/components/AddItemModal.jsx:64-66 | numbers below 1000 have at most three digits, so padding to 3 never truncates |
| JsNumber.LeadingZerosValue | src/components/AddItemModal.jsx:66 | zeros padded in front do not change a numeral's value |
| JsNumber.IntToString | src/components/MainFeature.jsx:117 | no contract of its own: `JsNumber.ParseIntOfRendered` says `parseInt` reads the integer back from it; its exponent-free form is admitted under Left out |
| JsNumber.ParseIntOfRendered | src/components/MainFeature.jsx:117 | `parseInt` reads back any integer from its `toString`, also when followed by a character that is not a digit, `x` or `X` |
| JsNumber.ParseInt | src/components/MainFeature.jsx:341 | no contract of its own: `JsNumber.ParseIntOfRendered` makes it the inverse of `toString`, `JsNumber.ParseUnsignedOfNumeral` fixes the digit run it reads, and `JsNumber.NonNumericIsZero` covers input without digits |
| JsNumber.ParseIntOrZero | src/components/AddItemModal.jsx:35 | no contract of its own: `JsNumber.ParseIntOrZeroOfRendered` and `JsNumber.NonNumericIsZero` pin down the `parseInt(value) \|\| 0` coercion |
| JsNumber.ParseIntOrZeroOfRendered | src/components/AddItemModal.jsx:35 | `parseInt(n.toString()) \|\| 0` is n for every integer n |
| JsNumber.NonNumericIsZero | src/components/AddItemModal.jsx:35 | input without a single decimal digit is coerced to 0 |
| Inventory.DeriveStatus | src/components/MainFeature.jsx:144 | low stock exactly at or below 10, in stock exactly above it |
| Inventory.StatusLabel | src/components/MainFeature.jsx:171-175 | no contract of its own: the display strings "In Stock", "Low Stock" and "Out of Stock" of the three statuses; `Inventory.StatusBadges` gives the badge of each |
| Inventory.StatusBadge | src/components/MainFeature.jsx:169-180 | no contract of its own: `Inventory.StatusBadges` gives the badge of every status and of every derived status |
| Inventory.StatusBadges | src/components/MainFeature.jsx:169-180 | each status has its own badge and none uses the default; a derived status never gets the out-of-stock badge |
| Inventory.StatusBoundaries | src/components/MainFeature.jsx:144 | 10 and 0 are low stock, 11 is in stock |
| Inventory.SeedItems | src/components/MainFeature.jsx:21-72 | no contract of its own: the five seed items, dates as UTC-midnight milliseconds; `Inventory.SeedIsConsistent` states their ids are distinct and their statuses follow the threshold |
| Inventory.SeedIsConsistent | src/components/MainFeature.jsx:21-72 | the seed ids are distinct, and every seed status and quantity follow the threshold rule |
| Inventory.ApplyToItem | src/components/MainFeature.jsx:140-152 | no contract of its own: `Inventory.ApplyTransaction` states every field of the replacement object it builds |
| Inventory.ApplyTransaction | src/components/MainFeature.jsx:138-155 | same length and ids, non-targets unchanged, and each target gets quantity ± amount, the new location, the threshold status and the submit time, keeping name, SKU and category |
| Inventory.ApplyAbsentIdIsIdentity | src/components/MainFeature.jsx:138-155 | a transaction for an id not in the list leaves the list as it is |
| Inventory.ApplyKeepsDistinctIds | src/components/MainFeature.jsx:138-155 | distinct ids stay distinct |
| Inventory.ApplyTwiceDiffers | src/components/MainFeature.jsx:140-142 | a non-zero transaction applied again changes the quantity of an item present in the list once more (for an absent id both applications are the identity) |
| Inventory.ApplyKeepsConsistent | src/components/MainFeature.jsx:138-155 | if no targeted stock goes negative, every quantity stays non-negative and every status agrees with its quantity |
| TransactionModal.ValidateTransaction | src/components/MainFeature.jsx:109-126 | quantity error exactly for a non-positive quantity or an over-removal (whose message overwrites the first), location error exactly for an empty location, no other field |
| TransactionModal.ValidIffAcceptable | src/components/MainFeature.jsx:124-125 | the dialog accepts exactly a positive quantity, within the available stock for a removal, with a location |
| TransactionModal.RemoveTooMuchMessage | src/components/MainFeature.jsx:117 | no contract of its own: `TransactionModal.RemoveMessageNamesAvailable` says it is the fixed prefix followed by a quantity that `parseInt` reads back, and `TransactionModal.ScenarioRemoveTooMuch` gives it for 8 |
| TransactionModal.RemoveMessageNamesAvailable | src/components/MainFeature.jsx:117 | the over-removal message is its fixed prefix followed by the available quantity, which `parseInt` reads back |
| TransactionModal.InitialModal | src/components/MainFeature.jsx:75-83 | no contract of its own: the `useState` defaults — closed, nothing selected, kind add, quantity 1, no location, no notes, no errors, no success |
| TransactionModal.OpenTransactionModal | src/components/MainFeature.jsx:89-98 | opening selects the item and kind, with quantity 1, the item's location, no notes, no errors and no success |
| TransactionModal.OpenForgetsHistory | src/components/MainFeature.jsx:89-98 | the opened dialog does not depend on the state the previous use left |
| TransactionModal.RemoveEnabled | src/components/MainFeature.jsx:253 | no contract of its own: `TransactionModal.FreshDialogIsValid` says a removal opened through the enabled button is valid, and `TransactionModal.Step` ignores the disabled button |
| TransactionModal.FreshDialogIsValid | src/components/MainFeature.jsx:253 | a freshly opened dialog on an item with a location is valid whenever its row button could be pressed |
| TransactionModal.StepDown | src/components/MainFeature.jsx:333 | the minus button lowers a quantity above 1 by one, sets any other quantity to exactly 1, and changes nothing else |
| TransactionModal.StepUp | src/components/MainFeature.jsx:347 | the plus button adds exactly one to the quantity, whatever was typed, and changes nothing else |
| TransactionModal.StepperRoundTrips | src/components/MainFeature.jsx:333-347 | minus undoes plus from 1 up, and plus undoes minus from 2 up |
| TransactionModal.StepDownNeverNonPositive | src/components/MainFeature.jsx:333 | after the minus button, only an over-removal can make the quantity rule fire |
| TransactionModal.TypeQuantity | src/components/MainFeature.jsx:341 | typing the numeral of n sets the quantity to n, and nothing else changes |
| TransactionModal.NonNumericQuantityRefused | src/components/MainFeature.jsx:341 | typed text without digits becomes 0 and, when the available stock is not negative, is refused with the positive-quantity message |
| TransactionModal.ChooseLocation | src/components/MainFeature.jsx:363 | only the location changes |
| TransactionModal.TypeNotes | src/components/MainFeature.jsx:384 | only the notes change |
| TransactionModal.CloseModal | src/components/MainFeature.jsx:101-106 | the dialog is closed and deselected, and nothing else changes |
| TransactionModal.Submit | src/components/MainFeature.jsx:129-166 | a refused request records the errors and leaves the items; an accepted one applies the transaction for the selected id and ends closed and successful |
| TransactionModal.NotesAreNotStored | src/components/MainFeature.jsx:146-152 | the notes never affect the item list |
| TransactionModal.SubmitKeepsConsistent | src/components/MainFeature.jsx:116-155 | with a current snapshot of the selected item, an accepted submit keeps quantities non-negative and statuses consistent |
| TransactionModal.StaleSnapshotGoesNegative | src/components/MainFeature.jsx:116-142 | validating against a stale snapshot of 8 lets a removal of 5 take a current 3 to -2 |
| TransactionModal.TypedDialog | src/components/MainFeature.jsx:89-98 | typing a numeral into a fresh dialog sets exactly that quantity on the opened state |
| TransactionModal.ScenarioAddCrossesThreshold | src/components/MainFeature.jsx:138-151 | adding 10 to 5 gives 15, in stock, stamped with the submit time |
| TransactionModal.ScenarioRemoveCrossesThreshold | src/components/MainFeature.jsx:140-144 | removing 20 from 24 gives 4, low stock |
| TransactionModal.ScenarioRemoveTooMuch | src/components/MainFeature.jsx:116-118 | removing 10 from 8 is refused with the message naming 8, and the items are unchanged |
| TransactionModal.Step | src/components/MainFeature.jsx:244-395 | the table's and the dialog's event handlers: only a submit can change the item list; `TransactionModal.StepKeepsInvariant` states what every event preserves |
| TransactionModal.StepKeepsInvariant | src/components/MainFeature.jsx:244-253 | every table or dialog event keeps the collection consistent, the ids distinct and the snapshot current |
| TransactionModal.RunKeepsInvariant | src/components/MainFeature.jsx:129-166 | any sequence of events keeps that invariant |
| TransactionModal.InventoryNeverNegative | src/components/MainFeature.jsx:21-166 | starting from the seed, no event sequence makes a quantity negative or a status disagree with its quantity |
| AddItemModal.RuleErrors | src/components/AddItemModal.jsx:77-98 | each failed rule puts its own field's message and no other rule touches that field |
| AddItemModal.ValidateNewItem | src/components/AddItemModal.jsx:77-102 | errors exactly for a blank name or SKU, an empty category or location, and a non-positive quantity |
| AddItemModal.NewItemValidIff | src/components/AddItemModal.jsx:101 | a new item is accepted exactly when name and SKU are not blank, category and location are chosen and the quantity is positive |
| AddItemModal.InitialForm | src/components/AddItemModal.jsx:15-21 | no contract of its own: empty name, SKU, category and location with quantity 1; `AddItemModal.InitialFormErrors` says validation refuses it on every field but the quantity |
| AddItemModal.InitialFormErrors | src/components/AddItemModal.jsx:15-21 | the untouched form is refused on every field except the quantity |
| AddItemModal.SetField | src/components/AddItemModal.jsx:38-41 | only the edited field changes |
| AddItemModal.HandleChange | src/components/AddItemModal.jsx:29-50 | the edited field takes the value (quantity coerced), its error is cleared, and other fields and errors are kept |
| AddItemModal.TypedQuantity | src/components/AddItemModal.jsx:34-36 | typing the numeral of n sets the quantity to n |
| AddItemModal.NonNumericQuantityRefused | src/components/AddItemModal.jsx:34-36 | typed text without digits becomes 0, which the quantity rule refuses |
| AddItemModal.CategoryCode | src/components/AddItemModal.jsx:58 | no contract of its own: `AddItemModal.CategoryCodeLayout` gives its length and contents |
| AddItemModal.NameCode | src/components/AddItemModal.jsx:59-63 | no contract of its own: `AddItemModal.NameCodeIsWordStarts` gives it by a definition that does not split |
| AddItemModal.SerialCode | src/components/AddItemModal.jsx:64-66 | no contract of its own: `AddItemModal.SerialCodeRoundTrip` says it is three digits reading back as the random number |
| AddItemModal.SkuFor | src/components/AddItemModal.jsx:68 | no contract of its own: `AddItemModal.SkuLayout` places its three codes and two dashes, and `AddItemModal.GeneratedSkuNotBlank` says it is never blank |
| AddItemModal.SerialCodeRoundTrip | src/components/AddItemModal.jsx:64-66 | the serial is three digits that read back as the random number, leading zeros included |
| AddItemModal.NameCodeIsWordStarts | src/components/AddItemModal.jsx:59-63 | the name code is the first two upper-cased word starts of the name |
| AddItemModal.CategoryCodeLayout | src/components/AddItemModal.jsx:58 | the category code is the upper-cased first (up to) two characters of the category |
| AddItemModal.SkuLayout | src/components/AddItemModal.jsx:68 | a generated SKU is category code, dash, name code, dash, serial, at the offsets their lengths give |
| AddItemModal.GeneratedSkuNotBlank | src/components/AddItemModal.jsx:68 | a generated SKU is never blank |
| AddItemModal.GenerateSku | src/components/AddItemModal.jsx:53-74 | nothing happens without a category and a name; otherwise only the SKU changes, to a non-blank generated one, and the errors are kept |
| AddItemModal.GeneratedFormPassesSkuRule | src/components/AddItemModal.jsx:53-57 | after generation SKU and category pass validation; the name passes exactly when it is not blank |
| AddItemModal.ResetForm | src/components/AddItemModal.jsx:129-139 | the form, the errors and the success flag return to their initial values and nothing else changes |
| AddItemModal.ResetReturnsToInitial | src/components/AddItemModal.jsx:129-147 | with nothing in flight and no timer pending, a reset followed by the close, and an accepted `handleClose`, give back exactly the dialog's starting state |
| AddItemModal.HandleClose | src/components/AddItemModal.jsx:142-147 | close happens exactly when no submit is in flight; a refused close changes nothing, an accepted one closes with a reset form |
| AddItemModal.HandleSubmit | src/components/AddItemModal.jsx:105-112 | the shown errors are the validation result; an acceptable form is captured as it stands, and an unacceptable one captures nothing new |
| AddItemModal.Deliver | src/components/AddItemModal.jsx:115-119 | the captured form goes to the parent, the in-flight flag drops and the success view shows |
| AddItemModal.Finish | src/components/AddItemModal.jsx:121-124 | the pending second timer resets the form and closes the dialog |
| AddItemModal.Step | src/components/AddItemModal.jsx:157-325 | the dialog's event handlers: a form is handed to the parent only by the first submit timer, and it is the captured one; `AddItemModal.StepKeepsCaptureValid` states what every event preserves |
| AddItemModal.StepKeepsCaptureValid | src/components/AddItemModal.jsx:105-126 | every event keeps the captured form valid, and whatever is delivered is valid |
| AddItemModal.EditWhileSubmittingNotDelivered | src/components/AddItemModal.jsx:116 | edits made while a submit is in flight do not reach the parent |
| AddItemModal.CloseKeepsSubmission | src/components/AddItemModal.jsx:142-147 | a close attempt during a submit leaves the captured form to be delivered |
| AddItemModal.RunDeliversOnlyValid | src/components/AddItemModal.jsx:105-126 | over any event sequence, every delivered form is acceptable |
| AddItemModal.DeliveredItemsAreValid | src/components/AddItemModal.jsx:77-126 | from the initial dialog, every form passed to `onAddItem` passes the dialog's own validation |

## Left out

- Rendering, animations, icons and styling are left out. Only the disabled states and the
  conditions under which the forms exist are kept, as guards on events.
- Date display formatting (`format(item.lastUpdated, ...)`) is left out. Dates are millisecond
  timestamps.
- The 1000 ms latency of the transaction submit is collapsed into one step. So is the 1500 ms
  timer after it, during which the transaction dialog shows its success view before closing:
  `TransactionModal.Submit` closes at once. In the code, a close and reopen within that window is
  closed again by the earlier timer; the model cannot express this. The 300 ms delay before the
  transaction dialog drops its selection, and before the add-item form resets after a close, is
  collapsed too.
- The transaction dialog's `isSubmitting` flag is left out. It only disables the submit button
  during the collapsed latency. Closing that dialog during the latency cannot be expressed.
- Timer ordering in the add-item dialog: pending timers may fire in any order relative to user
  events, and their durations are not modelled.
- JsNumber.ParseInt: integer values only. Double-precision rounding of numerals beyond 2^53 is
  left out, as are exponent and fraction parts, which `parseInt` stops at anyway.
- Numbers are unbounded integers, not doubles. The stepper's `+ 1` and `- 1`, the stock update
  `quantity ± amount` and every other sum in the model are exact, where JavaScript rounds above
  2^53.
- JsNumber.IntToString: writes every digit. JavaScript's `toString` switches to exponent notation
  (`1e+21`) from 10^21 up, so the over-removal message differs from JavaScript's for such
  quantities.
- Strings are sequences of Unicode code points, while `substring`, `charAt` and `split` in
  JavaScript count UTF-16 code units. So `AddItemModal.CategoryCode` and `AddItemModal.NameCode`
  differ from JavaScript when the category or a name starts with a character outside the Basic
  Multilingual Plane (an emoji, say): JavaScript takes half of its surrogate pair, the model the
  whole character.
- JsText.AsciiUpper: upper-casing is modelled for ASCII letters only. Other characters are kept,
  whereas JavaScript also maps non-ASCII letters.
- `Math.random()` is left out. Its scaled and floored value is a parameter.
- The parent's `onAddItem` is left out. No page in this repository renders `AddItemModal`, so the
  model only records what would be passed to it.
- The transaction notes are kept in the dialog only. The source never stores them, which
  `TransactionModal.NotesAreNotStored` states.
- The search and category filters, the routing shell and the not-found page are not part of this
  model.
- TransactionModal.SubmitKeepsConsistent: requires that the snapshot taken when the dialog opened
  is still the item's quantity. The source validates against the snapshot and updates the current
  item. `TransactionModal.StaleSnapshotGoesNegative` shows what happens without the requirement,
  and `TransactionModal.InventoryNeverNegative` shows that the dashboard's own event sequences
  always meet it.

=== FILE: add_item_modal.dfy ===
/**
 The add-item dialog: its form, the per-field validation, the edit handler that coerces the
 quantity and clears the edited field's error, the SKU generator, the reset, the close guard
 and the submit, which validates, captures the form and hands it to the parent when the first
 timer fires, then resets and closes the dialog when the second one fires.
 */
module AddItemModal {
  import opened Wrappers
  import opened JsText
  import opened JsNumber
  import opened Forms

  datatype FormData = FormData(name: string, sku: string, category: string, quantity: int, location: string)

  /** The form the dialog starts with and returns to after a reset. */
  const InitialForm: FormData := FormData("", "", "", 1, "")

  const NameRequiredMessage: string := "Item name is required"
  const SkuRequiredMessage: string := "SKU is required"
  const CategoryRequiredMessage: string := "Please select a category"
  const QuantityNotPositiveMessage: string := "Quantity must be greater than 0"
  const LocationRequiredMessage: string := "Please select a location"

  /**
   The error map `validateForm` builds, from the verdicts of its five rules in source order; every
   failed rule sets its own field's message.
   */
  function RuleErrors(nameBlank: bool, skuBlank: bool, noCategory: bool, quantityNotPositive: bool, noLocation: bool): (errors: Errors)
    ensures Name in errors <==> nameBlank
    ensures Sku in errors <==> skuBlank
    ensures Category in errors <==> noCategory
    ensures Quantity in errors <==> quantityNotPositive
    ensures Location in errors <==> noLocation
    ensures Name in errors ==> errors[Name] == NameRequiredMessage
    ensures Sku in errors ==> errors[Sku] == SkuRequiredMessage
    ensures Category in errors ==> errors[Category] == CategoryRequiredMessage
    ensures Quantity in errors ==> errors[Quantity] == QuantityNotPositiveMessage
    ensures Location in errors ==> errors[Location] == LocationRequiredMessage
  {
    var e0: Errors := map[];
    var e1 := if nameBlank then e0[Name := NameRequiredMessage] else e0;
    var e2 := if skuBlank then e1[Sku := SkuRequiredMessage] else e1;
    var e3 := if noCategory then e2[Category := CategoryRequiredMessage] else e2;
    var e4 := if quantityNotPositive then e3[Quantity := QuantityNotPositiveMessage] else e3;
    if noLocation then e4[Location := LocationRequiredMessage] else e4
  }

  /**
   `validateForm` of the dialog: name and SKU are refused when blank after trimming, category and
   location when empty, the quantity when not positive.
   */
  function ValidateNewItem(f: FormData): (errors: Errors)
    ensures Name in errors <==> IsBlank(f.name)
    ensures Sku in errors <==> IsBlank(f.sku)
    ensures Category in errors <==> f.category == []
    ensures Quantity in errors <==> f.quantity <= 0
    ensures Location in errors <==> f.location == []
  {
    RuleErrors(TrimsToEmpty(f.name), TrimsToEmpty(f.sku), f.category == [], f.quantity <= 0, f.location == [])
  }

  /** What the dialog demands of a new item, in its own words. */
  ghost predicate Acceptable(f: FormData) {
    !IsBlank(f.name) && !IsBlank(f.sku) && f.category != [] && f.quantity > 0 && f.location != []
  }

  /**
   A new item is accepted exactly when its name and SKU are not blank, a category and a location
   are chosen and the quantity is positive.
   */
  lemma NewItemValidIff(f: FormData)
    ensures NoErrors(ValidateNewItem(f)) <==> Acceptable(f)
  {
    NoErrorsIffNoField(ValidateNewItem(f));
  }

  /** The untouched form is refused on every field except the quantity, which starts at 1. */
  lemma InitialFormErrors()
    ensures var e := ValidateNewItem(InitialForm);
      Name in e && Sku in e && Category in e && Location in e && Quantity !in e
  {
    assert IsBlank(InitialForm.name) && IsBlank(InitialForm.sku);
  }

  /**
   The dialog's state. `open` is the parent's `isOpen`, which `onClose` clears; `submitting` holds
   the form captured by an accepted submit while its first timer is pending (the source's
   `isSubmitting`); `finishPending` counts second timers not yet fired.
   */
  datatype State = State(
    open: bool,
    form: FormData,
    errors: Errors,
    submitting: Option<FormData>,
    success: bool,
    finishPending: nat)

  const InitialState: State := State(false, InitialForm, map[], None, false, 0)

  /** Two forms agree on one field. */
  predicate SameField(a: FormData, b: FormData, field: Field) {
    match field
    case Name => a.name == b.name
    case Sku => a.sku == b.sku
    case Category => a.category == b.category
    case Quantity => a.quantity == b.quantity
    case Location => a.location == b.location
  }

  /** The text a field holds; the quantity is a number and has none. */
  function TextOf(f: FormData, field: Field): string
    requires field != Quantity
  {
    match field
    case Name => f.name
    case Sku => f.sku
    case Category => f.category
    case Location => f.location
  }

  /**
   `{...prev, [name]: processedValue}`: the edited field takes the processed value, which is the
   text for the text fields and `number` for the quantity.
   */
  function SetField(f: FormData, field: Field, text: string, number: int): (r: FormData)
    ensures field != Quantity ==> TextOf(r, field) == text
    ensures field == Quantity ==> r.quantity == number
    ensures forall g :: g != field ==> SameField(r, f, g)
  {
    match field
    case Name => f.(name := text)
    case Sku => f.(sku := text)
    case Category => f.(category := text)
    case Quantity => f.(quantity := number)
    case Location => f.(location := text)
  }

  /**
   `handleChange`: the edited field takes the input's value (the quantity through
   `parseInt(value) || 0`), and that field's error, if it has one, is cleared; the other fields and
   their errors stay as they are.
   */
  function HandleChange(st: State, field: Field, value: string): (r: State)
    ensures field != Quantity ==> TextOf(r.form, field) == value
    ensures field == Quantity ==> r.form.quantity == ParseIntOrZero(value)
    ensures forall g :: g != field ==> SameField(r.form, st.form, g)
    ensures field !in r.errors
    ensures forall g :: g != field && g in st.errors ==> g in r.errors && r.errors[g] == st.errors[g]
    ensures r.errors.Keys <= st.errors.Keys
    ensures r.(form := st.form, errors := st.errors) == st
  {
    var errors := if field in st.errors then ClearError(st.errors, field) else st.errors;
    st.(form := SetField(st.form, field, value, ParseIntOrZero(value)), errors := errors)
  }

  /** Typing the numeral of `n` into the quantity input sets the quantity to `n`. */
  lemma TypedQuantity(st: State, n: int)
    ensures HandleChange(st, Quantity, IntToString(n)).form.quantity == n
  {
    ParseIntOrZeroOfRendered(n);
  }

  /** Typing something without a digit into the quantity input leaves 0, which validation refuses. */
  lemma NonNumericQuantityRefused(st: State, text: string)
    requires forall i :: 0 <= i < |text| ==> !IsDecimalDigit(text[i])
    ensures var r := HandleChange(st, Quantity, text);
      Quantity in ValidateNewItem(r.form) && ValidateNewItem(r.form)[Quantity] == QuantityNotPositiveMessage
  {
    NonNumericIsZero(text);
  }

  /** `category.substring(0, 2).toUpperCase()` */
  function CategoryCode(category: string): string {
    UpperAll(Prefix(category, 2))
  }

  /** `name.split(' ').map(word => word.charAt(0).toUpperCase()).join('').substring(0, 2)` */
  function NameCode(name: string): string {
    Prefix(Initials(Split(name, ' ')), 2)
  }

  /** `randomNumber.toString().padStart(3, '0')` */
  function SerialCode(randomNumber: nat): string {
    PadStart(NatToDecimal(randomNumber), 3, '0')
  }

  /** The template `${categoryPrefix}-${namePrefix}-${randomNum}`. */
  function SkuFor(category: string, name: string, randomNumber: nat): string {
    CategoryCode(category) + "-" + NameCode(name) + "-" + SerialCode(randomNumber)
  }

  /** The serial part of a SKU is three decimal digits that read back as the random number, leading zeros included. */
  lemma SerialCodeRoundTrip(randomNumber: nat)
    requires randomNumber < 1000
    ensures |SerialCode(randomNumber)| == 3
    ensures forall i :: 0 <= i < 3 ==> IsDecimalDigit(SerialCode(randomNumber)[i])
    ensures DigitsValue(SerialCode(randomNumber), 10) == randomNumber
    ensures ParseInt(SerialCode(randomNumber)) == Some(randomNumber)
  {
    var d := NatToDecimal(randomNumber);
    var s := SerialCode(randomNumber);
    DecimalLength(randomNumber);
    assert s == seq(3 - |d|, _ => '0') + d;
    LeadingZerosValue(3 - |d|, d, 10);
    DecimalValue(randomNumber);
    assert s + [] == s;
    LeadingDigitsOfNumeral(s, [], 10);
    ParseIntUnsigned(s);
  }

  /**
   The name part of a SKU is the first two of the upper-cased word starts of the name, a word start
   being a non-space character at the beginning or after a space.
   */
  lemma NameCodeIsWordStarts(name: string)
    ensures NameCode(name) == Prefix(UpperAll(WordStarts(name, true)), 2)
  {
    InitialsAreWordStarts(name);
  }

  /** The category part of a SKU: the first (up to) two characters of the category, upper-cased. */
  lemma CategoryCodeLayout(category: string)
    ensures |CategoryCode(category)| == Min(2, |category|)
    ensures CategoryCode(category) == UpperAll(category[..Min(2, |category|)])
  {
  }

  /** Where the pieces of `a-b-z` sit. */
  lemma DashedLayout(a: string, b: string, z: string)
    ensures var w := a + "-" + b + "-" + z;
      && |w| == |a| + |b| + |z| + 2
      && w[..|a|] == a
      && w[|a|] == '-'
      && w[|a| + 1..|a| + 1 + |b|] == b
      && w[|a| + 1 + |b|] == '-'
      && w[|a| + 2 + |b|..] == z
  {
    var w := a + "-" + b + "-" + z;
    assert w == a + (['-'] + (b + (['-'] + z)));
    SplitAppend(a, ['-'] + (b + (['-'] + z)));
    SplitAppend(b, ['-'] + z);
  }

  /**
   The layout of a generated SKU: the category code, a dash, the name code, a dash and the serial,
   each found at the offset the lengths of the codes before it give.
   */
  lemma SkuLayout(category: string, name: string, randomNumber: nat)
    ensures var sku := SkuFor(category, name, randomNumber);
      var c := |CategoryCode(category)|;
      var k := |NameCode(name)|;
      && |sku| == c + k + |SerialCode(randomNumber)| + 2
      && sku[..c] == CategoryCode(category)
      && sku[c] == '-'
      && sku[c + 1..c + 1 + k] == NameCode(name)
      && sku[c + 1 + k] == '-'
      && sku[c + 2 + k..] == SerialCode(randomNumber)
  {
    DashedLayout(CategoryCode(category), NameCode(name), SerialCode(randomNumber));
  }

  /** A generated SKU is never blank (it holds dashes), so the SKU rule accepts it. */
  lemma GeneratedSkuNotBlank(category: string, name: string, randomNumber: nat)
    ensures !IsBlank(SkuFor(category, name, randomNumber))
  {
    SkuLayout(category, name, randomNumber);
    var c := Min(2, |category|);
    assert !IsJsWhitespace(SkuFor(category, name, randomNumber)[c]);
  }

  /**
   `generateSKU`, with `Math.floor(Math.random() * 1000)` as the parameter: nothing happens until a
   category and a name are given; otherwise only the SKU is replaced, and an error shown for the
   SKU stays until the field is edited.
   */
  function GenerateSku(st: State, randomNumber: nat): (r: State)
    requires randomNumber < 1000
    ensures st.form.category == [] || st.form.name == [] ==> r == st
    ensures st.form.category != [] && st.form.name != [] ==>
      && r.form.sku == SkuFor(st.form.category, st.form.name, randomNumber)
      && !IsBlank(r.form.sku)
    ensures forall g :: g != Sku ==> SameField(r.form, st.form, g)
    ensures r.(form := st.form) == st
  {
    if st.form.category == [] || st.form.name == [] then st
    else
      GeneratedSkuNotBlank(st.form.category, st.form.name, randomNumber);
      st.(form := st.form.(sku := SkuFor(st.form.category, st.form.name, randomNumber)))
  }

  /**
   Once a SKU is generated, validation has nothing to say about the SKU or the category; the name
   rule still refuses a name of spaces only, which the generator lets through.
   */
  lemma GeneratedFormPassesSkuRule(st: State, randomNumber: nat)
    requires randomNumber < 1000
    requires st.form.category != [] && st.form.name != []
    ensures var e := ValidateNewItem(GenerateSku(st, randomNumber).form);
      Sku !in e && Category !in e && (Name in e <==> IsBlank(st.form.name))
  {
  }

  /** `resetForm`: the form, the errors and the success flag return to their initial values. */
  function ResetForm(st: State): (r: State)
    ensures r.form == InitialForm && r.errors == map[] && !r.success
    ensures r.(form := st.form, errors := st.errors, success := st.success) == st
  {
    st.(form := InitialForm, errors := map[], success := false)
  }

  /** With nothing in flight and no timer pending, a reset and a close give back the dialog's starting state. */
  lemma ResetReturnsToInitial(st: State)
    requires st.submitting.None? && st.finishPending == 0
    ensures ResetForm(st).(open := false) == InitialState
    ensures HandleClose(st) == (InitialState, true)
  {
  }

  /**
   `handleClose`: refused while a submit is in flight; otherwise the parent closes the dialog and
   the form is reset (the 300 ms delay of the reset is taken as elapsed). The flag says whether
   `onClose` was called.
   */
  function HandleClose(st: State): (r: (State, bool))
    ensures r.1 <==> st.submitting.None?
    ensures !r.1 ==> r.0 == st
    ensures r.1 ==> !r.0.open && r.0.form == InitialForm && r.0.errors == map[] && !r.0.success
    ensures r.0.submitting == st.submitting && r.0.finishPending == st.finishPending
  {
    if st.submitting.Some? then (st, false)
    else (ResetForm(st).(open := false), true)
  }

  /**
   `handleSubmit`: the form is validated and the errors are shown; an accepted form is captured as
   it stands, and that capture is what the parent will receive.
   */
  function HandleSubmit(st: State): (r: State)
    ensures r.errors == ValidateNewItem(st.form)
    ensures Acceptable(st.form) ==> r.submitting == Some(st.form)
    ensures !Acceptable(st.form) ==> r.submitting == st.submitting
    ensures r.(errors := st.errors, submitting := st.submitting) == st
  {
    NewItemValidIff(st.form);
    var errors := ValidateNewItem(st.form);
    if NoErrors(errors) then st.(errors := errors, submitting := Some(st.form))
    else st.(errors := errors)
  }

  /**
   The first timer of a submit: the captured form goes to `onAddItem`, the in-flight flag drops,
   the success view shows, and the second timer is scheduled. Nothing happens without a capture.
   */
  function Deliver(st: State): (r: (State, Option<FormData>))
    ensures st.submitting.None? ==> r == (st, None)
    ensures st.submitting.Some? ==>
      && r.1 == st.submitting
      && r.0.submitting.None? && r.0.success && r.0.finishPending == st.finishPending + 1
      && r.0.form == st.form && r.0.open == st.open
  {
    if st.submitting.None? then (st, None)
    else (st.(submitting := None, success := true, finishPending := st.finishPending + 1), st.submitting)
  }

  /** The second timer: the form is reset and the parent closes the dialog. */
  function Finish(st: State): (r: State)
    ensures st.finishPending == 0 ==> r == st
    ensures st.finishPending > 0 ==>
      && !r.open && r.form == InitialForm && r.errors == map[] && !r.success
      && r.finishPending == st.finishPending - 1 && r.submitting == st.submitting
  {
    if st.finishPending == 0 then st
    else ResetForm(st).(open := false, finishPending := st.finishPending - 1)
  }

  /** What can happen to the dialog: the parent opens it, the user acts, or a timer fires. */
  datatype Event =
    | OpenDialog
    | Change(field: Field, value: string)
    | Generate(randomNumber: nat)
    | SubmitForm
    | CloseDialog
    | DeliverTimer
    | FinishTimer

  /** The form is shown while the dialog is open and not in its success view. */
  predicate FormShown(st: State) {
    st.open && !st.success
  }

  /**
   One event, with the forms handed to the parent so far. Inputs and buttons act only while the
   form is shown; the submit button (and with it implicit submission) and the close buttons are
   disabled while a submit is in flight, and the backdrop closes through the same guard. Only the
   first submit timer hands a form over, and it is the captured one.
   */
  function Step(st: State, ev: Event): (r: (State, Option<FormData>))
    ensures r.1.Some? ==> ev == DeliverTimer && r.1 == st.submitting
  {
    match ev
    case OpenDialog => (st.(open := true), None)
    case Change(field, value) => (if FormShown(st) then HandleChange(st, field, value) else st, None)
    case Generate(randomNumber) =>
      (if FormShown(st) && randomNumber < 1000 then GenerateSku(st, randomNumber) else st, None)
    case SubmitForm => (if FormShown(st) && st.submitting.None? then HandleSubmit(st) else st, None)
    case CloseDialog => (if st.open then HandleClose(st).0 else st, None)
    case DeliverTimer => Deliver(st)
    case FinishTimer => (Finish(st), None)
  }

  datatype Outcome = Outcome(state: State, delivered: seq<FormData>)

  function Run(st: State, events: seq<Event>): (o: Outcome)
    decreases |events|
  {
    if |events| == 0 then Outcome(st, [])
    else
      var s := Step(st, events[0]);
      var rest := Run(s.0, events[1..]);
      Outcome(rest.state, (if s.1.Some? then [s.1.value] else []) + rest.delivered)
  }

  /** A captured form is always one that validation accepted. */
  ghost predicate CaptureValid(st: State) {
    st.submitting.Some? ==> Acceptable(st.submitting.value)
  }

  lemma StepKeepsCaptureValid(st: State, ev: Event)
    requires CaptureValid(st)
    ensures CaptureValid(Step(st, ev).0)
    ensures Step(st, ev).1.Some? ==> Acceptable(Step(st, ev).1.value)
  {
    match ev
    case SubmitForm =>
      if FormShown(st) && st.submitting.None? {
        NewItemValidIff(st.form);
      }
    case DeliverTimer =>
      assert Step(st, ev).1 == st.submitting;
      assert Step(st, ev).0.submitting.None? || Step(st, ev).0.submitting == st.submitting;
    case _ =>
      assert Step(st, ev).0.submitting == st.submitting;
  }

  /** Edits made while a submit is in flight do not reach the parent: the captured form does. */
  lemma EditWhileSubmittingNotDelivered(st: State, field: Field, value: string)
    requires st.submitting.Some?
    ensures Deliver(HandleChange(st, field, value)).1 == st.submitting
  {
  }

  /** A close while a submit is in flight changes nothing, so the captured form is still delivered. */
  lemma CloseKeepsSubmission(st: State)
    requires st.submitting.Some?
    ensures Deliver(HandleClose(st).0).1 == st.submitting
  {
  }

  lemma {:induction false} RunDeliversOnlyValid(st: State, events: seq<Event>)
    requires CaptureValid(st)
    ensures CaptureValid(Run(st, events).state)
    ensures forall i :: 0 <= i < |Run(st, events).delivered| ==> Acceptable(Run(st, events).delivered[i])
    decreases |events|
  {
    if |events| > 0 {
      var s := Step(st, events[0]);
      StepKeepsCaptureValid(st, events[0]);
      RunDeliversOnlyValid(s.0, events[1..]);
      var rest := Run(s.0, events[1..]);
      var head := if s.1.Some? then [s.1.value] else [];
      assert Run(st, events).delivered == head + rest.delivered;
      forall i | 0 <= i < |Run(st, events).delivered|
        ensures Acceptable(Run(st, events).delivered[i])
      {
        if i >= |head| {
          assert Run(st, events).delivered[i] == rest.delivered[i - |head|];
        }
      }
    }
  }

  /**
   Whatever is typed, generated or clicked, every item the dialog hands to the parent passes the
   dialog's own validation: a non-blank name and SKU, a category, a location, a positive quantity.
   */
  lemma DeliveredItemsAreValid(events: seq<Event>)
    ensures forall i :: 0 <= i < |Run(InitialState, events).delivered| ==>
      NoErrors(ValidateNewItem(Run(InitialState, events).delivered[i]))
  {
    var delivered := Run(InitialState, events).delivered;
    RunDeliversOnlyValid(InitialState, events);
    forall i | 0 <= i < |delivered|
      ensures NoErrors(ValidateNewItem(delivered[i]))
    {
      NewItemValidIff(delivered[i]);
    }
  }
}

=== FILE: forms.dfy ===
/** The field-error maps both inventory forms keep: one human-readable message per invalid input. */
module Forms {

  /** The inputs of the two forms; the transaction form uses only `Quantity` and `Location`. */
  datatype Field = Name | Sku | Category | Quantity | Location

  /** A plain object from field name to message; a field is invalid exactly when it has an entry. */
  type Errors = map<Field, string>

  /** `Object.keys(errors).length === 0`: the verdict both `validateForm` functions return. */
  predicate NoErrors(e: Errors) {
    |e| == 0
  }

  /**
   Removes the message of one field and keeps every other entry. The source stores `undefined`
   under the key, which every reader of the map treats like a missing entry.
   */
  function ClearError(e: Errors, f: Field): (r: Errors)
    ensures f !in r
    ensures forall g :: g in e && g != f ==> g in r && r[g] == e[g]
    ensures forall g :: g in r ==> g in e
  {
    e - {f}
  }

  /** An error map is empty exactly when no field is in it. */
  lemma NoErrorsIffNoField(e: Errors)
    ensures NoErrors(e) <==> e == map[]
    ensures NoErrors(e) <==> forall f: Field :: f !in e
  {
    if !NoErrors(e) {
      var f :| f in e.Keys;
      assert f in e;
    }
  }
}

=== FILE: inventory.dfy ===
/**
 The inventory store of the dashboard: stock items, the threshold rule that derives their status,
 the badge each status label is shown with, the seed collection, and the one mutation, which
 applies an add/remove transaction to the items whose id it targets.
 */
module Inventory {

  /** A `Date`'s time value: milliseconds since the Unix epoch. */
  type Timestamp = int

  /** `OutOfStock` belongs to the vocabulary of the badge mapping but the status rule never yields it. */
  datatype Status = InStock | LowStock | OutOfStock

  datatype Kind = Add | Remove

  datatype Item = Item(
    id: int,
    name: string,
    sku: string,
    category: string,
    quantity: int,
    location: string,
    status: Status,
    lastUpdated: Timestamp)

  /** Quantities up to and including this value are low stock. */
  const LowStockThreshold: int := 10

  /** The status recomputed after every transaction: low stock up to the threshold, in stock above it. */
  function DeriveStatus(quantity: int): (s: Status)
    ensures s == LowStock <==> quantity <= LowStockThreshold
    ensures s == InStock <==> quantity > LowStockThreshold
  {
    if quantity <= LowStockThreshold then LowStock else InStock
  }

  /** The status string an item carries. */
  function StatusLabel(s: Status): string {
    match s
    case InStock => "In Stock"
    case LowStock => "Low Stock"
    case OutOfStock => "Out of Stock"
  }

  /** `getStatusBadge`: the badge class shown for a status string, with a default for any other string. */
  function StatusBadge(text: string): string {
    if text == "In Stock" then "badge-secondary"
    else if text == "Low Stock" then "badge-warning"
    else if text == "Out of Stock" then "badge-danger"
    else "badge-primary"
  }

  /**
   Every status gets its own badge and none falls through to the default; a derived status is never
   shown with the out-of-stock badge, even at quantity 0.
   */
  lemma StatusBadges(q: int)
    ensures StatusBadge(StatusLabel(InStock)) == "badge-secondary"
    ensures StatusBadge(StatusLabel(LowStock)) == "badge-warning"
    ensures StatusBadge(StatusLabel(OutOfStock)) == "badge-danger"
    ensures StatusBadge(StatusLabel(DeriveStatus(q))) != "badge-danger"
    ensures forall s: Status :: StatusBadge(StatusLabel(s)) != "badge-primary"
  {
  }

  /** The threshold is inclusive: 10 and 0 are low stock, 11 is in stock. */
  lemma StatusBoundaries()
    ensures DeriveStatus(10) == LowStock && DeriveStatus(11) == InStock && DeriveStatus(0) == LowStock
  {
  }

  /** An item whose quantity is not negative and whose status agrees with it. */
  ghost predicate WellFormedItem(item: Item) {
    item.quantity >= 0 && item.status == DeriveStatus(item.quantity)
  }

  /** Every item of the collection is well formed. */
  ghost predicate Consistent(items: seq<Item>) {
    forall i :: 0 <= i < |items| ==> WellFormedItem(items[i])
  }

  ghost predicate DistinctIds(items: seq<Item>) {
    forall i, j :: 0 <= i < j < |items| ==> items[i].id != items[j].id
  }

  /** The five items the dashboard starts with; the dates are midnight UTC. */
  const SeedItems: seq<Item> := [
    Item(1, "Wireless Keyboard", "KB-WL-001", "Electronics", 24, "Warehouse A", InStock, 1700006400000),
    Item(2, "Office Chair", "FN-CH-102", "Furniture", 8, "Warehouse B", LowStock, 1700438400000),
    Item(3, "Laptop Stand", "AC-LS-034", "Office Supplies", 15, "Warehouse A", InStock, 1700265600000),
    Item(4, "Wireless Mouse", "KB-WM-022", "Electronics", 5, "Warehouse C", LowStock, 1700611200000),
    Item(5, "Monitor 24\"", "EL-MN-056", "Electronics", 12, "Warehouse A", InStock, 1699574400000)
  ]

  /** The seed ids are distinct and every seed status already follows the threshold rule. */
  lemma SeedIsConsistent()
    ensures DistinctIds(SeedItems)
    ensures Consistent(SeedItems)
  {
  }

  /** One add/remove request against an item id, carrying the location the item moves to. */
  datatype Transaction = Transaction(itemId: int, kind: Kind, quantity: int, location: string)

  /** The replacement object built for a targeted item: `{...item, quantity, location, status, lastUpdated}`. */
  function ApplyToItem(item: Item, tx: Transaction, now: Timestamp): Item {
    var newQuantity := if tx.kind == Add then item.quantity + tx.quantity else item.quantity - tx.quantity;
    item.(quantity := newQuantity, location := tx.location, status := DeriveStatus(newQuantity), lastUpdated := now)
  }

  /**
   The item-list `map` of a submitted transaction: every item whose id is the target's is replaced,
   every other item is kept as it is, in the same order.
   */
  function ApplyTransaction(items: seq<Item>, tx: Transaction, now: Timestamp): (r: seq<Item>)
    ensures |r| == |items|
    ensures forall i :: 0 <= i < |items| ==> r[i].id == items[i].id
    ensures forall i :: 0 <= i < |items| && items[i].id != tx.itemId ==> r[i] == items[i]
    ensures forall i :: 0 <= i < |items| && items[i].id == tx.itemId ==>
      && r[i].name == items[i].name && r[i].sku == items[i].sku && r[i].category == items[i].category
      && (tx.kind == Add ==> r[i].quantity == items[i].quantity + tx.quantity)
      && (tx.kind == Remove ==> r[i].quantity == items[i].quantity - tx.quantity)
      && r[i].location == tx.location
      && (r[i].status == LowStock <==> r[i].quantity <= LowStockThreshold)
      && (r[i].status == InStock <==> r[i].quantity > LowStockThreshold)
      && r[i].lastUpdated == now
  {
    if |items| == 0 then []
    else
      var head := if items[0].id == tx.itemId then ApplyToItem(items[0], tx, now) else items[0];
      [head] + ApplyTransaction(items[1..], tx, now)
  }

  /** A transaction whose id matches no item leaves the list as it is. */
  lemma ApplyAbsentIdIsIdentity(items: seq<Item>, tx: Transaction, now: Timestamp)
    requires forall i :: 0 <= i < |items| ==> items[i].id != tx.itemId
    ensures ApplyTransaction(items, tx, now) == items
  {
    var r := ApplyTransaction(items, tx, now);
    assert forall i :: 0 <= i < |items| ==> r[i] == items[i];
  }

  /** Ids and their order survive a transaction, so distinct ids stay distinct. */
  lemma ApplyKeepsDistinctIds(items: seq<Item>, tx: Transaction, now: Timestamp)
    requires DistinctIds(items)
    ensures DistinctIds(ApplyTransaction(items, tx, now))
  {
  }

  /**
   Transactions are not idempotent: applying a non-zero transaction again to its own result
   changes the quantity of an item present in the list once more. (For an absent id both
   applications leave the list as it is.)
   */
  lemma ApplyTwiceDiffers(items: seq<Item>, tx: Transaction, now: Timestamp, i: int)
    requires 0 <= i < |items| && items[i].id == tx.itemId
    requires tx.quantity != 0
    ensures ApplyTransaction(ApplyTransaction(items, tx, now), tx, now)[i].quantity
         != ApplyTransaction(items, tx, now)[i].quantity
  {
  }

  /**
   A transaction keeps the collection consistent when, for every targeted item, the quantity it
   moves keeps that item's stock from going negative.
   */
  lemma ApplyKeepsConsistent(items: seq<Item>, tx: Transaction, now: Timestamp)
    requires Consistent(items)
    requires forall i :: 0 <= i < |items| && items[i].id == tx.itemId ==>
      if tx.kind == Add then tx.quantity >= 0 else tx.quantity <= items[i].quantity
    ensures Consistent(ApplyTransaction(items, tx, now))
  {
    var r := ApplyTransaction(items, tx, now);
    forall i | 0 <= i < |r|
      ensures WellFormedItem(r[i])
    {
      assert WellFormedItem(items[i]);
    }
  }
}

=== FILE: js_number.dfy ===
/**
 The number/string conversions of JavaScript the inventory forms use, on integers:
 `parseInt(s)` without a radix (section 19.2.5 of ECMA-262, with `NaN` as `None`), the
 `parseInt(s) || 0` coercion of the quantity inputs, `Number.prototype.toString()` and
 `String.prototype.padStart`.
 */
module JsNumber {
  import opened Wrappers
  import opened JsText

  predicate IsDecimalDigit(c: char) {
    '0' <= c <= '9'
  }

  /** The value of `c` as a digit of a radix up to 36 ('0'-'9', then letters of either case), or 36 for a non-digit. */
  function DigitValue(c: char): (d: nat)
    ensures d < 10 <==> IsDecimalDigit(c)
    ensures d <= 36
  {
    if '0' <= c <= '9' then c as int - '0' as int
    else if 'a' <= c <= 'z' then c as int - 'a' as int + 10
    else if 'A' <= c <= 'Z' then c as int - 'A' as int + 10
    else 36
  }

  predicate IsRadixDigit(c: char, radix: nat) {
    DigitValue(c) < radix
  }

  /** The longest prefix of `s` made of digits of `radix`. */
  function LeadingDigits(s: string, radix: nat): (z: string)
    ensures |z| <= |s| && z == s[..|z|]
    ensures forall i :: 0 <= i < |z| ==> IsRadixDigit(z[i], radix)
    ensures |z| == |s| || !IsRadixDigit(s[|z|], radix)
  {
    if |s| > 0 && IsRadixDigit(s[0], radix) then [s[0]] + LeadingDigits(s[1..], radix) else []
  }

  /** The number a string of digits denotes in `radix`, most significant digit first. */
  function DigitsValue(z: string, radix: nat): nat {
    if |z| == 0 then 0 else DigitsValue(z[..|z| - 1], radix) * radix + DigitValue(z[|z| - 1])
  }

  /**
   The unsigned part of `parseInt`: a `0x`/`0X` prefix switches to radix 16, then the longest run
   of digits is read; no digit at all is `NaN` (None).
   */
  function ParseUnsigned(u: string): Option<nat> {
    var hex := |u| >= 2 && u[0] == '0' && (u[1] == 'x' || u[1] == 'X');
    var radix := if hex then 16 else 10;
    var z := LeadingDigits(if hex then u[2..] else u, radix);
    if |z| == 0 then None else Some(DigitsValue(z, radix))
  }

  function Negate(v: Option<nat>): Option<int> {
    match v
    case None => None
    case Some(x) => Some(0 - x)
  }

  /** `parseInt(s)`: leading whitespace is skipped and one optional sign is taken before the digits. */
  function ParseInt(s: string): Option<int> {
    var t := TrimStart(s);
    var negative := |t| > 0 && t[0] == '-';
    var u := if |t| > 0 && (t[0] == '-' || t[0] == '+') then t[1..] else t;
    var magnitude := ParseUnsigned(u);
    if negative then Negate(magnitude) else magnitude
  }

  /** `parseInt(s) || 0`: `NaN` is falsy and so is a (negative) zero, and both become 0. */
  function ParseIntOrZero(s: string): int {
    ParseInt(s).GetOr(0)
  }

  function DecimalDigit(d: nat): (c: char)
    requires d < 10
    ensures IsDecimalDigit(c) && DigitValue(c) == d
  {
    ('0' as int + d) as char
  }

  /** The decimal numeral of `n` without leading zeros, as `n.toString()` writes it. */
  function NatToDecimal(n: nat): (s: string)
    ensures |s| >= 1
    ensures forall i :: 0 <= i < |s| ==> IsDecimalDigit(s[i])
    ensures s[0] == '0' ==> n == 0 && |s| == 1
    ensures n < 10 <==> |s| == 1
  {
    if n < 10 then [DecimalDigit(n)] else NatToDecimal(n / 10) + [DecimalDigit(n % 10)]
  }

  /** `n.toString()` for an integer value. */
  function IntToString(n: int): string {
    if n < 0 then ['-'] + NatToDecimal(Abs(n)) else NatToDecimal(n)
  }

  function Abs(n: int): nat {
    if n < 0 then -n else n
  }

  /** `s.padStart(width, fill)` with a one-character fill. */
  function PadStart(s: string, width: nat, fill: char): (r: string)
    ensures |r| == if |s| >= width then |s| else width
    ensures r[|r| - |s|..] == s
    ensures forall i :: 0 <= i < |r| - |s| ==> r[i] == fill
  {
    if |s| >= width then s else seq(width - |s|, _ => fill) + s
  }

  /** Reading back the numeral `n.toString()` gives `n`. */
  lemma {:induction false} DecimalValue(n: nat)
    ensures DigitsValue(NatToDecimal(n), 10) == n
  {
    if n >= 10 {
      var s := NatToDecimal(n);
      DecimalValue(n / 10);
      assert s[..|s| - 1] == NatToDecimal(n / 10);
    }
  }

  /** Numbers below 1000 have at most three decimal digits. */
  lemma {:induction false} DecimalLength(n: nat)
    ensures n < 1000 ==> |NatToDecimal(n)| <= 3
  {
    if n >= 10 {
      DecimalLength(n / 10);
      assert n < 1000 ==> n / 10 < 100;
      if n / 10 >= 10 {
        assert NatToDecimal(n / 10 / 10) == NatToDecimal(n / 100);
        assert n < 1000 ==> n / 100 < 10;
      }
    }
  }

  /** A leading zero digit does not change the value of a numeral. */
  lemma {:induction false} LeadingZeroValue(z: string, radix: nat)
    ensures DigitsValue(['0'] + z, radix) == DigitsValue(z, radix)
  {
    if |z| > 0 {
      assert (['0'] + z)[..|z|] == ['0'] + z[..|z| - 1];
      LeadingZeroValue(z[..|z| - 1], radix);
    }
  }

  lemma {:induction false} LeadingZerosValue(k: nat, z: string, radix: nat)
    ensures DigitsValue(seq(k, _ => '0') + z, radix) == DigitsValue(z, radix)
  {
    if k > 0 {
      assert seq(k, _ => '0') + z == ['0'] + (seq(k - 1, _ => '0') + z);
      LeadingZeroValue(seq(k - 1, _ => '0') + z, radix);
      LeadingZerosValue(k - 1, z, radix);
    } else {
      assert seq(k, _ => '0') + z == z;
    }
  }

  /** The digits of `z` are read up to the first character after them that is no digit. */
  lemma {:induction false} LeadingDigitsOfNumeral(z: string, rest: string, radix: nat)
    requires forall i :: 0 <= i < |z| ==> IsRadixDigit(z[i], radix)
    requires rest == [] || !IsRadixDigit(rest[0], radix)
    ensures LeadingDigits(z + rest, radix) == z
  {
    if |z| > 0 {
      assert (z + rest)[1..] == z[1..] + rest;
      LeadingDigitsOfNumeral(z[1..], rest, radix);
      assert z == [z[0]] + z[1..];
    } else {
      assert z + rest == rest;
    }
  }

  lemma TrimStartOfNonSpace(s: string)
    requires s == [] || !IsJsWhitespace(s[0])
    ensures TrimStart(s) == s
  {
  }

  /** The unsigned reader gives back `m` from its numeral followed by a non-digit. */
  lemma ParseUnsignedOfNumeral(m: nat, rest: string)
    requires rest == [] || (!IsDecimalDigit(rest[0]) && rest[0] != 'x' && rest[0] != 'X')
    ensures ParseUnsigned(NatToDecimal(m) + rest) == Some(m)
  {
    var d := NatToDecimal(m);
    var u := d + rest;
    assert !(|u| >= 2 && u[0] == '0' && (u[1] == 'x' || u[1] == 'X')) by {
      if |u| >= 2 && u[0] == '0' {
        assert |d| == 1;
        assert u[1] == rest[0];
      }
    }
    LeadingDigitsOfNumeral(d, rest, 10);
    DecimalValue(m);
  }

  /**
   `parseInt` reads back what `toString` wrote, when the numeral is followed by nothing or by a
   character that neither continues it nor turns a lone `0` into a `0x` prefix.
   */
  lemma ParseIntOfRendered(n: int, rest: string)
    requires rest == [] || (!IsDecimalDigit(rest[0]) && rest[0] != 'x' && rest[0] != 'X')
    ensures ParseInt(IntToString(n) + rest) == Some(n)
  {
    if n < 0 {
      RenderedNegative(n, rest);
    } else {
      RenderedNonNegative(n, rest);
    }
  }

  lemma RenderedNegative(n: int, rest: string)
    requires n < 0
    requires rest == [] || (!IsDecimalDigit(rest[0]) && rest[0] != 'x' && rest[0] != 'X')
    ensures ParseInt(IntToString(n) + rest) == Some(n)
  {
    NegativeNumeral(Abs(n), rest);
    NegativeShape(n, rest);
  }

  /** A minus sign in front of the numeral of `m` (followed by a non-digit) is read as `-m`. */
  lemma NegativeNumeral(m: nat, rest: string)
    requires rest == [] || (!IsDecimalDigit(rest[0]) && rest[0] != 'x' && rest[0] != 'X')
    ensures ParseInt(['-'] + (NatToDecimal(m) + rest)) == Negate(Some(m))
  {
    ParseUnsignedOfNumeral(m, rest);
    SignedNumeral(NatToDecimal(m) + rest, m);
  }

  /** A minus sign in front of a string the unsigned reader accepts negates its value. */
  lemma SignedNumeral(u: string, m: nat)
    requires ParseUnsigned(u) == Some(m)
    ensures ParseInt(['-'] + u) == Negate(Some(m))
  {
    SplitAppend(['-'], u);
    ParseIntNegative(['-'] + u);
  }

  lemma RenderedNonNegative(n: int, rest: string)
    requires n >= 0
    requires rest == [] || (!IsDecimalDigit(rest[0]) && rest[0] != 'x' && rest[0] != 'X')
    ensures ParseInt(IntToString(n) + rest) == Some(n)
  {
    ParseUnsignedOfNumeral(n, rest);
    ParseIntUnsigned(NatToDecimal(n) + rest);
  }

  lemma NegativeShape(n: int, rest: string)
    requires n < 0
    ensures IntToString(n) + rest == ['-'] + (NatToDecimal(Abs(n)) + rest)
  {
  }

  lemma ParseIntNegative(w: string)
    requires |w| > 0 && w[0] == '-'
    ensures ParseInt(w) == Negate(ParseUnsigned(w[1..]))
  {
    assert !IsJsWhitespace(w[0]);
    TrimStartOfNonSpace(w);
    assert TrimStart(w) == w;
  }

  lemma ParseIntUnsigned(w: string)
    requires |w| > 0 && IsDecimalDigit(w[0])
    ensures ParseInt(w) == ParseUnsigned(w)
  {
    assert !IsJsWhitespace(w[0]);
    TrimStartOfNonSpace(w);
    assert TrimStart(w) == w;
    assert w[0] != '-' && w[0] != '+';
  }

  /** `parseInt(n.toString()) || 0` is `n` for every integer `n`. */
  lemma ParseIntOrZeroOfRendered(n: int)
    ensures ParseIntOrZero(IntToString(n)) == n
  {
    ParseIntOfRendered(n, []);
    assert IntToString(n) + [] == IntToString(n);
  }

  /** The unsigned reader finds nothing in a string without decimal digits. */
  lemma ParseUnsignedNoDigit(u: string)
    requires forall i :: 0 <= i < |u| ==> !IsDecimalDigit(u[i])
    ensures ParseUnsigned(u) == None
  {
    assert |u| == 0 || !IsRadixDigit(u[0], 10);
  }

  /** Input without a single decimal digit is coerced to 0 by `parseInt(s) || 0`. */
  lemma NonNumericIsZero(s: string)
    requires forall i :: 0 <= i < |s| ==> !IsDecimalDigit(s[i])
    ensures ParseIntOrZero(s) == 0
  {
    var t := TrimStart(s);
    var k := |s| - |t|;
    assert t == s[k..];
    if |t| > 0 && (t[0] == '-' || t[0] == '+') {
      assert t[1..] == s[k + 1..];
      ParseUnsignedNoDigit(s[k + 1..]);
    } else {
      ParseUnsignedNoDigit(s[k..]);
    }
  }
}

=== FILE: js_text.dfy ===
/**
 The string primitives of JavaScript that the inventory forms rely on, over `seq<char>`:
 `String.prototype.trim`, `toUpperCase` (restricted to ASCII), `substring(0, n)`,
 `split` on a one-character separator and its inverse `join`.
 */
module JsText {

  /** The WhiteSpace and LineTerminator code points of ECMAScript, which `trim` and `parseInt` skip. */
  predicate IsJsWhitespace(c: char) {
    || c == '\t' || c == '\n' || c == '\U{000B}' || c == '\U{000C}' || c == '\r' || c == ' '
    || c == '\U{00A0}' || c == '\U{1680}' || ('\U{2000}' <= c <= '\U{200A}')
    || c == '\U{2028}' || c == '\U{2029}' || c == '\U{202F}' || c == '\U{205F}'
    || c == '\U{3000}' || c == '\U{FEFF}'
  }

  /** A string made only of whitespace (the empty string included): JavaScript treats its trim as falsy. */
  ghost predicate IsBlank(s: string) {
    forall i :: 0 <= i < |s| ==> IsJsWhitespace(s[i])
  }

  /** Drops leading whitespace: what is left is a suffix of `s` that is empty or starts with a non-space. */
  function TrimStart(s: string): (r: string)
    ensures |r| <= |s| && r == s[|s| - |r|..]
    ensures forall i :: 0 <= i < |s| - |r| ==> IsJsWhitespace(s[i])
    ensures r == [] || !IsJsWhitespace(r[0])
  {
    if |s| > 0 && IsJsWhitespace(s[0]) then TrimStart(s[1..]) else s
  }

  /** Drops trailing whitespace: what is left is a prefix of `s` that is empty or ends with a non-space. */
  function TrimEnd(s: string): (r: string)
    ensures |r| <= |s| && r == s[..|r|]
    ensures forall i :: |r| <= i < |s| ==> IsJsWhitespace(s[i])
    ensures r == [] || !IsJsWhitespace(r[|r| - 1])
  {
    if |s| > 0 && IsJsWhitespace(s[|s| - 1]) then TrimEnd(s[..|s| - 1]) else s
  }

  /** The two halves of a concatenation are recovered by slicing at the length of the first. */
  lemma SplitAppend<T>(a: seq<T>, b: seq<T>)
    ensures (a + b)[..|a|] == a && (a + b)[|a|..] == b
  {
  }

  /**
   `s.trim()`: the slice of `s` left after dropping whitespace at both ends; it neither starts nor
   ends with whitespace.
   */
  function Trim(s: string): (r: string)
    ensures |r| <= |s|
    ensures var k := |s| - |TrimStart(s)|;
      && k + |r| <= |s| && r == s[k..k + |r|]
      && (forall i :: 0 <= i < k ==> IsJsWhitespace(s[i]))
      && (forall i :: k + |r| <= i < |s| ==> IsJsWhitespace(s[i]))
    ensures r == [] || (!IsJsWhitespace(r[0]) && !IsJsWhitespace(r[|r| - 1]))
  {
    TrimEnd(TrimStart(s))
  }

  /** `!s.trim()` holds exactly for the blank strings. */
  lemma TrimEmptyIffBlank(s: string)
    ensures Trim(s) == [] <==> IsBlank(s)
  {
    var t := TrimStart(s);
    if Trim(s) == [] {
      // TrimEnd(t) is empty, so all of t is whitespace; as t cannot start with whitespace, t is empty
      assert t == [];
    } else {
      var u := Trim(s);
      assert !IsJsWhitespace(u[0]);
      assert u[0] == t[0] == s[|s| - |t|];
    }
  }

  /** `!s.trim()`: the trimmed string is empty, which happens exactly for the blank strings. */
  function TrimsToEmpty(s: string): (b: bool)
    ensures b <==> IsBlank(s)
  {
    TrimEmptyIffBlank(s);
    Trim(s) == []
  }

  /** ASCII `toUpperCase` of one character; every other character is left as it is. */
  function AsciiUpper(c: char): (u: char)
    ensures 'a' <= c <= 'z' ==> 'A' <= u <= 'Z' && u as int == c as int - 32
    ensures !('a' <= c <= 'z') ==> u == c
  {
    if 'a' <= c <= 'z' then (c as int - 32) as char else c
  }

  /** `s.toUpperCase()` over ASCII, character by character. */
  function UpperAll(s: string): (r: string)
    ensures |r| == |s|
    ensures forall i :: 0 <= i < |s| ==> r[i] == AsciiUpper(s[i])
  {
    if |s| == 0 then [] else [AsciiUpper(s[0])] + UpperAll(s[1..])
  }

  function Min(a: int, b: int): int {
    if a <= b then a else b
  }

  /** `s.substring(0, n)` for `n >= 0`: the whole string when it is shorter than `n`. */
  function Prefix(s: string, n: nat): (r: string)
    ensures |r| == Min(n, |s|)
    ensures r == s[..|r|]
  {
    if |s| <= n then s else s[..n]
  }

  /** `s.split(sep)` for a one-character separator: the pieces between separators, empty ones included. */
  function Split(s: string, sep: char): (parts: seq<string>)
    ensures |parts| >= 1
    ensures forall k :: 0 <= k < |parts| ==> sep !in parts[k]
  {
    if |s| == 0 then [[]]
    else
      var rest := Split(s[1..], sep);
      if s[0] == sep then [[]] + rest
      else [[s[0]] + rest[0]] + rest[1..]
  }

  /** `parts.join(sep)` */
  function Join(parts: seq<string>, sep: char): string
    requires |parts| >= 1
  {
    if |parts| == 1 then parts[0] else parts[0] + [sep] + Join(parts[1..], sep)
  }

  /** Splitting and joining again on the same separator gives back the original string. */
  lemma {:induction false} JoinSplit(s: string, sep: char)
    ensures Join(Split(s, sep), sep) == s
  {
    if |s| > 0 {
      var rest := Split(s[1..], sep);
      JoinSplit(s[1..], sep);
      if s[0] == sep {
        assert Split(s, sep)[1..] == rest;
        assert Join(Split(s, sep), sep) == [] + [sep] + Join(rest, sep);
        assert s == [s[0]] + s[1..];
      } else {
        var parts := Split(s, sep);
        if |rest| == 1 {
          assert Join(parts, sep) == [s[0]] + rest[0];
        } else {
          assert parts[1..] == rest[1..];
          assert Join(rest, sep) == rest[0] + [sep] + Join(rest[1..], sep);
          assert Join(parts, sep) == ([s[0]] + rest[0]) + [sep] + Join(rest[1..], sep);
        }
        assert s == [s[0]] + s[1..];
      }
    }
  }

  /**
   The first characters of the space-separated words of a string, as a reference definition that
   does not mention splitting: a character is a word start when it is not a space and is either the
   first character (`atStart`) or follows a space.
   */
  function WordStarts(s: string, atStart: bool): string {
    if |s| == 0 then []
    else (if atStart && s[0] != ' ' then [s[0]] else []) + WordStarts(s[1..], s[0] == ' ')
  }

  /** `words.map(word => word.charAt(0).toUpperCase()).join('')`: `charAt(0)` of an empty word is empty. */
  function Initials(words: seq<string>): string {
    if |words| == 0 then []
    else (if |words[0]| == 0 then [] else [AsciiUpper(words[0][0])]) + Initials(words[1..])
  }

  lemma {:induction false} InitialsAppend(a: seq<string>, b: seq<string>)
    ensures Initials(a + b) == Initials(a) + Initials(b)
  {
    if |a| > 0 {
      assert (a + b)[0] == a[0];
      assert (a + b)[1..] == a[1..] + b;
      InitialsAppend(a[1..], b);
      var h := if |a[0]| == 0 then [] else [AsciiUpper(a[0][0])];
      assert Initials(a + b) == h + Initials(a[1..] + b);
      assert Initials(a) == h + Initials(a[1..]);
    } else {
      assert a + b == b;
    }
  }

  /**
   The initials of the words of `s` split on spaces are the upper-cased word starts of `s`; the
   second conjunct is the same fact for all pieces but the first, which the induction needs.
   */
  lemma {:induction false} InitialsAreWordStarts(s: string)
    ensures Initials(Split(s, ' ')) == UpperAll(WordStarts(s, true))
    ensures Initials(Split(s, ' ')[1..]) == UpperAll(WordStarts(s, false))
  {
    if |s| > 0 {
      var rest := Split(s[1..], ' ');
      InitialsAreWordStarts(s[1..]);
      var parts := Split(s, ' ');
      if s[0] == ' ' {
        assert parts == [[]] + rest;
        assert parts[1..] == rest;
        InitialsAppend([[]], rest);
        assert WordStarts(s, true) == WordStarts(s[1..], true);
        assert WordStarts(s, false) == WordStarts(s[1..], true);
      } else {
        assert parts == [[s[0]] + rest[0]] + rest[1..];
        assert parts[1..] == rest[1..];
        InitialsAppend([[s[0]] + rest[0]], rest[1..]);
        assert Initials([[s[0]] + rest[0]]) == [AsciiUpper(s[0])];
        assert WordStarts(s, true) == [s[0]] + WordStarts(s[1..], false);
        assert WordStarts(s, false) == WordStarts(s[1..], false);
        UpperAllAppend([s[0]], WordStarts(s[1..], false));
      }
    }
  }

  lemma UpperAllAppend(a: string, b: string)
    ensures UpperAll(a + b) == UpperAll(a) + UpperAll(b)
  {
  }
}

=== FILE: transaction_modal.dfy ===
/**
 The stock-transaction dialog of the inventory table: validation of a proposed add/remove against
 the selected item, the dialog's state transitions (open, quantity stepper, typed quantity,
 location, notes, close) and the submit step that validates and then updates the item list.
 The simulated latency of the submit is collapsed into one step.
 */
module TransactionModal {
  import opened Wrappers
  import opened JsNumber
  import JsText
  import opened Forms
  import opened Inventory

  const QuantityNotPositiveMessage: string := "Quantity must be greater than 0"
  const RemoveTooMuchPrefix: string := "Cannot remove more than available quantity ("
  const LocationRequiredMessage: string := "Please select a location"

  /** The over-removal message, naming the quantity the selected item had when the dialog opened. */
  function RemoveTooMuchMessage(available: int): string {
    RemoveTooMuchPrefix + (IntToString(available) + ")")
  }

  /**
   `validateForm` of the dialog: a quantity that is not positive is refused, a removal of more than
   is available is refused with a message that replaces the first one, and an empty location is
   refused on its own key, so both fields can be reported together.
   */
  function ValidateTransaction(available: int, kind: Kind, quantity: int, location: string): (errors: Errors)
    ensures Quantity in errors <==> quantity <= 0 || (kind == Remove && quantity > available)
    ensures Quantity in errors && kind == Remove && quantity > available ==>
      errors[Quantity] == RemoveTooMuchMessage(available)
    ensures Quantity in errors && !(kind == Remove && quantity > available) ==>
      errors[Quantity] == QuantityNotPositiveMessage
    ensures Location in errors <==> location == []
    ensures Location in errors ==> errors[Location] == LocationRequiredMessage
    ensures Name !in errors && Sku !in errors && Category !in errors
  {
    var e0: Errors := map[];
    var e1 := if quantity <= 0 then e0[Quantity := QuantityNotPositiveMessage] else e0;
    var e2 := if kind == Remove && quantity > available then e1[Quantity := RemoveTooMuchMessage(available)] else e1;
    if location == [] then e2[Location := LocationRequiredMessage] else e2
  }

  /** The dialog accepts exactly a positive quantity, not above the available one for a removal, and a location. */
  lemma ValidIffAcceptable(available: int, kind: Kind, quantity: int, location: string)
    ensures NoErrors(ValidateTransaction(available, kind, quantity, location)) <==>
      quantity > 0 && (kind == Add || quantity <= available) && location != []
  {
    NoErrorsIffNoField(ValidateTransaction(available, kind, quantity, location));
  }

  /** The over-removal message carries the available quantity: `parseInt` reads it back after the prefix. */
  lemma RemoveMessageNamesAvailable(available: int)
    ensures RemoveTooMuchMessage(available)[..|RemoveTooMuchPrefix|] == RemoveTooMuchPrefix
    ensures ParseIntOrZero(RemoveTooMuchMessage(available)[|RemoveTooMuchPrefix|..]) == available
  {
    JsText.SplitAppend(RemoveTooMuchPrefix, IntToString(available) + ")");
    ParseIntOfRendered(available, ")");
  }

  /**
   The dialog's state. `selected` is the snapshot of the item taken when the dialog opened; the
   in-flight flag of the source is not kept because a submit is one step here.
   */
  datatype Modal = Modal(
    open: bool,
    selected: Option<Item>,
    kind: Kind,
    quantity: int,
    location: string,
    notes: string,
    errors: Errors,
    success: bool)

  const InitialModal: Modal := Modal(false, None, Add, 1, "", "", map[], false)

  /** `openTransactionModal`: everything the previous use of the dialog left behind is reset. */
  function OpenTransactionModal(m: Modal, item: Item, kind: Kind): (r: Modal)
    ensures r.open && r.selected == Some(item) && r.kind == kind
    ensures r.quantity == 1 && r.location == item.location && r.notes == [] && r.errors == map[] && !r.success
  {
    Modal(true, Some(item), kind, 1, item.location, "", map[], false)
  }

  /** Opening the dialog does not depend on what state it was left in. */
  lemma OpenForgetsHistory(m1: Modal, m2: Modal, item: Item, kind: Kind)
    ensures OpenTransactionModal(m1, item, kind) == OpenTransactionModal(m2, item, kind)
  {
  }

  /** The remove button of a row is disabled while the item's quantity is not positive. */
  predicate RemoveEnabled(item: Item) {
    item.quantity > 0
  }

  /**
   A freshly opened dialog on an item with a location is valid as it stands whenever its button
   could be pressed: one unit is always addable, and removable when the remove button is enabled.
   */
  lemma FreshDialogIsValid(m: Modal, item: Item, kind: Kind)
    requires item.location != []
    requires kind == Remove ==> RemoveEnabled(item)
    ensures var d := OpenTransactionModal(m, item, kind);
      NoErrors(ValidateTransaction(d.selected.value.quantity, d.kind, d.quantity, d.location))
  {
    var d := OpenTransactionModal(m, item, kind);
    ValidIffAcceptable(item.quantity, kind, 1, item.location);
  }

  /** The minus button: `Math.max(1, quantity - 1)`. */
  function StepDown(m: Modal): (r: Modal)
    ensures r.quantity >= 1
    ensures m.quantity > 1 ==> r.quantity == m.quantity - 1
    ensures m.quantity <= 1 ==> r.quantity == 1
    ensures r.(quantity := m.quantity) == m
  {
    m.(quantity := if m.quantity - 1 >= 1 then m.quantity - 1 else 1)
  }

  /** The plus button. */
  function StepUp(m: Modal): (r: Modal)
    ensures r.quantity == m.quantity + 1
    ensures r.(quantity := m.quantity) == m
  {
    m.(quantity := m.quantity + 1)
  }

  /** Minus undoes plus, and plus undoes minus above the floor of 1. */
  lemma StepperRoundTrips(m: Modal)
    ensures m.quantity >= 1 ==> StepDown(StepUp(m)) == m
    ensures m.quantity >= 2 ==> StepUp(StepDown(m)) == m
  {
  }

  /**
   After the minus button the positive-quantity rule never fires, whatever was typed before; only
   the over-removal rule can still put a quantity error.
   */
  lemma StepDownNeverNonPositive(m: Modal, available: int)
    ensures var r := StepDown(m);
      Quantity in ValidateTransaction(available, r.kind, r.quantity, r.location) ==>
        r.kind == Remove && r.quantity > available
  {
  }

  /** The quantity input: `parseInt(value) || 0`. */
  function TypeQuantity(m: Modal, text: string): (r: Modal)
    ensures r.(quantity := m.quantity) == m
    ensures forall n: int :: text == IntToString(n) ==> r.quantity == n
  {
    forall n: int | text == IntToString(n)
      ensures ParseIntOrZero(text) == n
    {
      ParseIntOrZeroOfRendered(n);
    }
    m.(quantity := ParseIntOrZero(text))
  }

  /**
   Typing something without a digit leaves quantity 0, which the positive-quantity rule refuses
   when the available stock is not negative.
   */
  lemma NonNumericQuantityRefused(m: Modal, text: string, available: int)
    requires forall i :: 0 <= i < |text| ==> !IsDecimalDigit(text[i])
    requires available >= 0
    ensures var r := TypeQuantity(m, text);
      var e := ValidateTransaction(available, r.kind, r.quantity, r.location);
      Quantity in e && e[Quantity] == QuantityNotPositiveMessage
  {
    NonNumericIsZero(text);
  }

  /** The location select. */
  function ChooseLocation(m: Modal, location: string): (r: Modal)
    ensures r.location == location && r.(location := m.location) == m
  {
    m.(location := location)
  }

  /** The notes text area; the notes are kept in the dialog only. */
  function TypeNotes(m: Modal, notes: string): (r: Modal)
    ensures r.notes == notes && r.(notes := m.notes) == m
  {
    m.(notes := notes)
  }

  /** `closeModal`, with the delayed clearing of the selection taken as done. */
  function CloseModal(m: Modal): (r: Modal)
    ensures !r.open && r.selected == None
    ensures r.(open := m.open, selected := m.selected) == m
  {
    m.(open := false, selected := None)
  }

  /**
   `handleSubmitTransaction`: the dialog is validated against the selected snapshot; a refused
   request only records the errors, an accepted one updates every item with the selected id, using
   that item's current quantity, and the dialog ends in its success state, closed.
   */
  function Submit(items: seq<Item>, m: Modal, now: Timestamp): (r: (seq<Item>, Modal))
    requires m.selected.Some?
    ensures var e := ValidateTransaction(m.selected.value.quantity, m.kind, m.quantity, m.location);
      && (!NoErrors(e) ==> r.0 == items && r.1 == m.(errors := e))
      && (NoErrors(e) ==> !r.1.open && r.1.selected == None && r.1.success && NoErrors(r.1.errors))
      && (NoErrors(e) ==> r.0 == ApplyTransaction(items, Transaction(m.selected.value.id, m.kind, m.quantity, m.location), now))
  {
    var item := m.selected.value;
    var errors := ValidateTransaction(item.quantity, m.kind, m.quantity, m.location);
    if !NoErrors(errors) then (items, m.(errors := errors))
    else
      var tx := Transaction(item.id, m.kind, m.quantity, m.location);
      (ApplyTransaction(items, tx, now), CloseModal(m.(errors := errors, success := true)))
  }

  /** The notes never reach the inventory. */
  lemma NotesAreNotStored(items: seq<Item>, m: Modal, notes: string, now: Timestamp)
    requires m.selected.Some?
    ensures Submit(items, TypeNotes(m, notes), now).0 == Submit(items, m, now).0
  {
  }

  /** Every item with the given id still has the quantity the dialog's snapshot recorded. */
  ghost predicate SnapshotCurrent(items: seq<Item>, snapshot: Item) {
    forall i :: 0 <= i < |items| && items[i].id == snapshot.id ==> items[i].quantity == snapshot.quantity
  }

  /**
   An accepted submit keeps every quantity non-negative and every status in line with its
   quantity, provided the snapshot validated against is still the item's current quantity.
   */
  lemma SubmitKeepsConsistent(items: seq<Item>, m: Modal, now: Timestamp)
    requires m.selected.Some?
    requires Consistent(items)
    requires SnapshotCurrent(items, m.selected.value)
    ensures Consistent(Submit(items, m, now).0)
  {
    var item := m.selected.value;
    var errors := ValidateTransaction(item.quantity, m.kind, m.quantity, m.location);
    if NoErrors(errors) {
      ValidIffAcceptable(item.quantity, m.kind, m.quantity, m.location);
      ApplyKeepsConsistent(items, Transaction(item.id, m.kind, m.quantity, m.location), now);
    }
  }

  /**
   Without a current snapshot the guarantee fails: an item that holds 3 units while the dialog still
   shows 8 accepts a removal of 5 and is left at -2, classified as low stock.
   */
  lemma StaleSnapshotGoesNegative()
    ensures var current := Item(2, "Office Chair", "FN-CH-102", "Furniture", 3, "Warehouse B", LowStock, 0);
      var m := TypeQuantity(OpenTransactionModal(InitialModal, current.(quantity := 8), Remove), "5");
      var r := Submit([current], m, 1);
      r.0[0].quantity == -2 && r.0[0].status == LowStock
  {
    var current := Item(2, "Office Chair", "FN-CH-102", "Furniture", 3, "Warehouse B", LowStock, 0);
    assert IntToString(5) == "5";
    ParseIntOrZeroOfRendered(5);
  }

  /** Typing the numeral of a quantity into a freshly opened dialog sets exactly that quantity. */
  lemma TypedDialog(item: Item, kind: Kind, n: int)
    ensures TypeQuantity(OpenTransactionModal(InitialModal, item, kind), IntToString(n))
         == Modal(true, Some(item), kind, n, item.location, "", map[], false)
  {
  }

  /**
   Adding 10 to an item that holds 5 units (as the seed's "Wireless Mouse" does) leaves it with 15,
   in stock, stamped with the submit time.
   */
  lemma ScenarioAddCrossesThreshold(items: seq<Item>, i: int, now: Timestamp)
    requires 0 <= i < |items| && items[i].quantity == 5 && items[i].location != []
    ensures var m := TypeQuantity(OpenTransactionModal(InitialModal, items[i], Add), "10");
      var r := Submit(items, m, now);
      r.0[i].quantity == 15 && r.0[i].status == InStock && r.0[i].lastUpdated == now
  {
    assert IntToString(10) == "10";
    TypedDialog(items[i], Add, 10);
    ValidIffAcceptable(5, Add, 10, items[i].location);
  }

  /** Removing 20 from an item that holds 24 (as the seed's "Wireless Keyboard" does) leaves 4, in low stock. */
  lemma ScenarioRemoveCrossesThreshold(items: seq<Item>, i: int, now: Timestamp)
    requires 0 <= i < |items| && items[i].quantity == 24 && items[i].location != []
    ensures var m := TypeQuantity(OpenTransactionModal(InitialModal, items[i], Remove), "20");
      var r := Submit(items, m, now);
      r.0[i].quantity == 4 && r.0[i].status == LowStock
  {
    assert IntToString(20) == "20";
    TypedDialog(items[i], Remove, 20);
    ValidIffAcceptable(24, Remove, 20, items[i].location);
  }

  /**
   Removing 10 from an item that holds 8 (as the seed's "Office Chair" does) is refused with the
   message naming 8, and the items are left as they are.
   */
  lemma ScenarioRemoveTooMuch(items: seq<Item>, i: int, now: Timestamp)
    requires 0 <= i < |items| && items[i].quantity == 8 && items[i].location != []
    ensures var m := TypeQuantity(OpenTransactionModal(InitialModal, items[i], Remove), "10");
      var r := Submit(items, m, now);
      r.0 == items && r.1.errors == map[Quantity := "Cannot remove more than available quantity (8)"]
  {
    assert IntToString(10) == "10";
    TypedDialog(items[i], Remove, 10);
    var e := ValidateTransaction(8, Remove, 10, items[i].location);
    assert IntToString(8) == "8";
    assert RemoveTooMuchMessage(8) == "Cannot remove more than available quantity (8)";
    assert e.Keys == {Quantity};
    assert e == map[Quantity := "Cannot remove more than available quantity (8)"];
  }

  /** What the user can do on the inventory table and in the dialog. */
  datatype Event =
    | OpenRow(row: int, kind: Kind)
    | PressMinus
    | PressPlus
    | EnterQuantity(text: string)
    | SelectLocation(location: string)
    | EnterNotes(text: string)
    | Close
    | SubmitAt(now: Timestamp)

  datatype Dashboard = Dashboard(items: seq<Item>, modal: Modal)

  const InitialDashboard: Dashboard := Dashboard(SeedItems, InitialModal)

  /**
   One user event. A row's buttons open the dialog on that row's current item (the remove button
   does nothing while disabled); the form exists, and can be submitted, only while the dialog is
   open on a selected item. Only a submit touches the item list.
   */
  function Step(d: Dashboard, ev: Event): (r: Dashboard)
    ensures !ev.SubmitAt? ==> r.items == d.items
  {
    match ev
    case OpenRow(row, kind) =>
      if 0 <= row < |d.items| && (kind == Add || RemoveEnabled(d.items[row]))
      then d.(modal := OpenTransactionModal(d.modal, d.items[row], kind))
      else d
    case PressMinus => d.(modal := StepDown(d.modal))
    case PressPlus => d.(modal := StepUp(d.modal))
    case EnterQuantity(text) => d.(modal := TypeQuantity(d.modal, text))
    case SelectLocation(location) => d.(modal := ChooseLocation(d.modal, location))
    case EnterNotes(text) => d.(modal := TypeNotes(d.modal, text))
    case Close => d.(modal := CloseModal(d.modal))
    case SubmitAt(now) =>
      if d.modal.open && d.modal.selected.Some?
      then var r := Submit(d.items, d.modal, now); Dashboard(r.0, r.1)
      else d
  }

  function Run(d: Dashboard, events: seq<Event>): Dashboard
    decreases |events|
  {
    if |events| == 0 then d else Run(Step(d, events[0]), events[1..])
  }

  /** What holds between events: a consistent collection with distinct ids, and a current snapshot. */
  ghost predicate Invariant(d: Dashboard) {
    && Consistent(d.items)
    && DistinctIds(d.items)
    && (d.modal.selected.Some? ==> SnapshotCurrent(d.items, d.modal.selected.value))
  }

  lemma StepKeepsInvariant(d: Dashboard, ev: Event)
    requires Invariant(d)
    ensures Invariant(Step(d, ev))
  {
    match ev
    case OpenRow(row, kind) =>
    case SubmitAt(now) =>
      if d.modal.open && d.modal.selected.Some? {
        SubmitKeepsConsistent(d.items, d.modal, now);
        var item := d.modal.selected.value;
        ApplyKeepsDistinctIds(d.items, Transaction(item.id, d.modal.kind, d.modal.quantity, d.modal.location), now);
      }
    case _ =>
  }

  /** Any sequence of events keeps the invariant it starts with. */
  lemma {:induction false} RunKeepsInvariant(d: Dashboard, events: seq<Event>)
    requires Invariant(d)
    ensures Invariant(Run(d, events))
    decreases |events|
  {
    if |events| > 0 {
      StepKeepsInvariant(d, events[0]);
      RunKeepsInvariant(Step(d, events[0]), events[1..]);
    }
  }

  /**
   Whatever the user does, starting from the seed inventory, no quantity ever goes negative and
   every status agrees with its quantity: the dialog only ever validates against the current item.
   */
  lemma InventoryNeverNegative(events: seq<Event>)
    ensures forall i :: 0 <= i < |Run(InitialDashboard, events).items| ==>
      Run(InitialDashboard, events).items[i].quantity >= 0
    ensures Consistent(Run(InitialDashboard, events).items)
  {
    SeedIsConsistent();
    RunKeepsInvariant(InitialDashboard, events);
  }
}

=== FILE: wrappers.dfy ===
/** The optional value used where the JavaScript source uses `null`, `NaN` or a missing entry. */
module Wrappers {

  datatype Option<+T> = None | Some(value: T) {

    /** Returns the value carried by Some, or `default` when there is none. */
    function GetOr(default: T): T {
      match this
      case Some(v) => v
      case None => default
    }
  }
}
